=== FILE: README.md ===
# Streaming-channel video heatmap: a Dafny model

This project models the data side of the Home page of a web client.
The page shows a year-long calendar heatmap of one streaming channel's uploaded videos.
Everything modelled comes from `src/pages/Home/Home.jsx`.

- **Dates** (module `Dates`):
  - the local-day arithmetic;
  - the 365-day display range ending today;
  - its Sunday-aligned grid start;
  - the millisecond bounds the fetch filters by;
  - the `formatDate` date key.
- **Videos** (module `Videos`):
  - a listing record;
  - how the page reads a record's date key (`publishDate` first, then `publishDateAt`);
  - how it reads the duration and the dedup identity (`videoId ?? videoNo`).
- **Heatmap** (module `Heatmap`), `buildHeatmapValuesDurationLevelFilled`:
  - the per-date sum of durations;
  - the filled day-by-day series;
  - the 0..4 level of each day.
- **Fetcher** (module `Fetcher`), `fetchVideosLastYear`:
  - the paging loop: abort check, HTTP and payload errors, the `??` chain for the item array, the in-range filter, and the two stop tests;
  - the final `Map`-based dedup.
- **Grouping** (module `Grouping`): the `dateMap` of video numbers per date that the page keeps for hovering.
- **Coordinator** (module `Coordinator`):
  - the request-id bookkeeping of the effect that runs when the channel changes;
  - which completions may update the grid, the date map and the loading flag.

Conventions of the model:

- A day is an integer day number; day 0 is 1970-01-01, a Thursday.
- Local time is taken to coincide with the epoch's day boundaries.
- The "YYYY-MM-DD" key is a fixed ten-character code of the day number (`Dates.DayText`). The model uses only its properties: it is injective, ten characters long, and different from the `"NaN-NaN-NaN"` text of an Invalid Date.
- A JSON field the code passes to `Number()` and tests for truthiness is a `NumericField`: its truthiness together with `Number()`'s value, where `None` stands for NaN. The two parts are not tied together: the model also admits a falsy field with a nonzero number, which JavaScript never produces.
- The remote listing is a `Remote`:
  - the response to each page index;
  - optionally, the loop iteration at which the abort signal is first seen.
  
  Pages past the end of the listing answer 200 with no items.
- The page and its effect are a state machine (`Coordinator.Step`). It has three kinds of events:
  - a channel selection (or clearing);
  - the settlement of request *n*'s fetch, which happens at most once and only for a request a channel selection started;
  - the firing of request *n*'s minimum-loading timer.

Where the code and its documentation differ, the model follows the code:

- Dedup keeps the first-insertion order of the identities and the last record for each identity (JavaScript `Map` semantics).
- A negative duration is summed as it is. Only the level clamps it to 0.
- The hover map files a video by `videoNo` only, even though a comment there mentions `videoId`.

## Model

| member | source | states |
|---|---|---|
| Dates.WeekStartSunday | src/pages/Home/Home.jsx:26-31 | the result is a Sunday, at most six days before the input, and no later Sunday lies between them |
| Dates.DayText | src/pages/Home/Home.jsx:15-18 | the date key of a day is ten characters, all digits |
| Dates.DayTextInjective | src/pages/Home/Home.jsx:15-18 | two days have the same date key exactly when they are the same day |
| Dates.FormatMsSameDay | src/pages/Home/Home.jsx:16-19 | two time values format alike exactly when they fall on the same day, or are both outside the representable range (Invalid Date) |
| Dates.DisplayWindow | src/pages/Home/Home.jsx:38-42 | the range ends today and starts 364 days earlier (365 days inclusive); the grid starts on the Sunday 0-6 days before the range start, so it spans 365 to 371 days; the fetch bounds are the first millisecond of the range start and the last millisecond of today |
| Dates.FetchBoundsMatchRange | src/pages/Home/Home.jsx:53-54 | a time value lies within [startMs, endMs] exactly when its day lies within the display range |
| Videos.DateKey | src/pages/Home/Home.jsx:104-108 | a video has no date key exactly when neither publishDate nor publishDateAt is truthy; a key, when present, is never empty |
| Videos.PublishDateKeysItsDay | src/pages/Home/Home.jsx:105 | a publishDate that begins with a day's key files the video under that day, whatever follows |
| Videos.TimestampKeysItsDay | src/pages/Home/Home.jsx:106 | without a truthy publishDate, a numeric publishDateAt within the ECMAScript time range files the video under the day it falls on; one outside that range, or NaN, files it under the Invalid Date text |
| Heatmap.Level | src/pages/Home/Home.jsx:130-131 | the level is 0 for a total of at most 0 seconds, 1 for (0, 6h], 2 for (6h, 12h], 3 for (12h, 18h] and 4 above 18h, in both directions |
| Heatmap.LevelMonotone | src/pages/Home/Home.jsx:130-131 | more seconds never give a lower level |
| Heatmap.SecondsByDate | src/pages/Home/Home.jsx:110-117 | the map has an entry for exactly the date keys some video carries, each holding the sum of those videos' durations; a key it lacks sums to zero |
| Heatmap.SecondsByDateKeys | src/pages/Home/Home.jsx:110-117 | a date is a key of the map exactly when some video of the list has that date key |
| Heatmap.FilledSeriesShape | src/pages/Home/Home.jsx:119-135 | the filled series has one bucket per day from start to end inclusive, the i-th being start + i's bucket, and is empty when end precedes start |
| Heatmap.LookupBucket | src/pages/Home/Home.jsx:127-133 | looking a day up in the summed map, with 0 for a missing date, gives that day's reference bucket |
| Heatmap.BuildHeatmapValues | src/pages/Home/Home.jsx:99-138 | the walk yields end - start + 1 buckets; the i-th is dated start + i, holds the duration sum of the videos keyed on that date, and its count is that sum's level |
| Heatmap.SeriesDatesDistinct | src/pages/Home/Home.jsx:126-135 | no date appears twice in the series |
| Heatmap.EmptySeriesAllZero | src/pages/Home/Home.jsx:170-172 | the initial and cleared grid has the same dates as any filled grid, with every total and level 0 |
| Heatmap.SingleVideoExample | src/pages/Home/Home.jsx:104-133 | a single 7200-second video dated day d puts level 1 and 7200 seconds on d and 0 everywhere else |
| Fetcher.Kept | src/pages/Home/Home.jsx:71-75 | a record is accumulated from a page exactly when its publishDateAt is a finite number within [startMs, endMs] |
| Fetcher.AccumulateInRange | src/pages/Home/Home.jsx:71-75 | the loop appends to acc exactly the in-range items, in page order |
| Fetcher.OldestBeforeIff | src/pages/Home/Home.jsx:78 | the page minimum (with 0 and NaN read as Infinity) precedes startMs exactly when some item's stamp does |
| Fetcher.OldPageStops | src/pages/Home/Home.jsx:77-79 | a successful page with any item stamped before the range ends the walk after its in-range items are kept, whatever its next flag says |
| Fetcher.FetchPage | src/pages/Home/Home.jsx:60-82 | one iteration throws exactly when the page is aborted, fails, has a non-OK status or an unparsable payload (an abort taking precedence); otherwise it keeps exactly the in-range items and asks for another page exactly when the page is non-empty, no item is stamped before startMs, and the page is full or reports a next page |
| Fetcher.Collect | src/pages/Home/Home.jsx:59-86 | every record of a successful walk lies inside the fetch bounds |
| Fetcher.ThrowEndsWalk | src/pages/Home/Home.jsx:60-66 | an iteration that throws ends the whole fetch with that error, discarding the records already accumulated |
| Fetcher.PagesAfterStopIgnored | src/pages/Home/Home.jsx:68-84 | two listings that agree up to the page where the walk stops give the same outcome: later pages are never requested |
| Fetcher.WalkKeepsVisited | src/pages/Home/Home.jsx:59-86 | an in-range item of any page the walk reached (every earlier page asked for another, and this one was answered) is among the records of a successful walk |
| Fetcher.EarlyStopDropsNothing | src/pages/Home/Home.jsx:77-82 | on a listing served newest first (no numeric publishDateAt after the finite stamp of a record on an earlier page; records without a finite stamp are not ordered) that ends at the page claiming to be last, no page after the one the walk stops at holds an in-range item |
| Fetcher.WalkComplete | src/pages/Home/Home.jsx:59-86 | on such a listing, a successful walk keeps every in-range item of every page |
| Fetcher.WalkPages | src/pages/Home/Home.jsx:56-86 | pages are requested 0, 1, 2, ... in order; every iteration but the last asked for another page; the last stopped or threw; the outcome is the reference walk |
| Fetcher.DedupFold | src/pages/Home/Home.jsx:89-90 | the Map's key order has no repeats, its keys are exactly those listed, and each value carries its own key |
| Fetcher.FoldKeepsLast | src/pages/Home/Home.jsx:89-90 | the Map holds an identity exactly when some record has it, and then holds the last such record |
| Fetcher.Dedup | src/pages/Home/Home.jsx:88-91 | the result has pairwise-distinct identities, each element is the last accumulated record of its identity, and every accumulated identity is represented |
| Fetcher.DedupRecords | src/pages/Home/Home.jsx:88-91 | the insertion loop followed by `[...map.values()]` computes the dedup |
| Fetcher.DedupOfDistinct | src/pages/Home/Home.jsx:88-91 | a list whose identities are already distinct is returned unchanged |
| Fetcher.DedupIdempotent | src/pages/Home/Home.jsx:88-91 | deduplicating twice gives the same as once |
| Fetcher.RepeatedRecordAbsorbed | src/pages/Home/Home.jsx:88-91 | meeting again a record that is already the latest for its identity (the same video on two pages) leaves the result unchanged |
| Fetcher.FetchVideosLastYear | src/pages/Home/Home.jsx:51-92 | the fetch returns the walk's records deduplicated or the first error; every returned record is in range, and no two share an identity |
| Fetcher.FetchKeepsVisited | src/pages/Home/Home.jsx:51-92 | a successful fetch returns a record with the identity of every in-range item on a page the walk reached |
| Fetcher.FetchComplete | src/pages/Home/Home.jsx:51-92 | on a listing served newest first that ends where it says, a successful fetch returns a record with the identity of every in-range item of every page |
| Grouping.NosOnMembers | src/pages/Home/Home.jsx:215-232 | a number is filed under a date exactly when some video with that date key carries it as videoNo |
| Grouping.GroupNos | src/pages/Home/Home.jsx:213-232 | the filing pass has a list for exactly the dates with a numbered video, holding their numbers in list order, never an empty list |
| Grouping.Unique | src/pages/Home/Home.jsx:235-237 | `Array.from(new Set(arr))` has no repeats, holds the same numbers and is no longer |
| Grouping.UniqueFirstSeenOrder | src/pages/Home/Home.jsx:236 | of two numbers in a deduplicated list, the earlier one first occurs earlier in the original list |
| Grouping.UniqueOfDistinct | src/pages/Home/Home.jsx:236 | a list without repeats passes through `new Set` unchanged |
| Grouping.VideoNosByDate | src/pages/Home/Home.jsx:213-237 | the stored map has a key exactly when some video filed under it is numbered; its lists have no repeats |
| Grouping.VideoNosByDateContents | src/pages/Home/Home.jsx:213-237 | a date is a key exactly when a numbered video is keyed on it, and its list holds exactly the numbers of those videos |
| Grouping.RepeatIgnored | src/pages/Home/Home.jsx:213-237 | a video listed twice does not change the stored map |
| Coordinator.CounterMonotone | src/pages/Home/Home.jsx:176-190 | the request counter never decreases; it goes up by one exactly on a selection or clearing |
| Coordinator.StaleEventInert | src/pages/Home/Home.jsx:207-261 | the completion or loading timer of any request other than the newest changes neither the grid, the date map, the loading flag nor the counter |
| Coordinator.CommitOnlyByCurrent | src/pages/Home/Home.jsx:178-249 | the grid and the date map change only by clearing (both emptied) or by the current request's successful completion (both showing that request's videos) |
| Coordinator.LoadingOffOnlyForCurrent | src/pages/Home/Home.jsx:254-262 | loading is switched off only by clearing or by the pending timer of the current request |
| Coordinator.StepKeepsTimersBehind | src/pages/Home/Home.jsx:254-262 | every step keeps every pending timer's id at most the counter |
| Coordinator.SelectStartsWithoutTimer | src/pages/Home/Home.jsx:190 | the id a selection hands out has no pending timer |
| Coordinator.CurrentTimerOnlyBySettle | src/pages/Home/Home.jsx:254-262 | after a step the current request has a timer only if that step settled it, or it already had one and the step was not a selection |
| Coordinator.CurrentTimerFollowsSettle | src/pages/Home/Home.jsx:174-263 | at the end of a run the current request's timer is pending only if it was pending at the start or that request settled during the run |
| Coordinator.TimerOnlyAfterSettle | src/pages/Home/Home.jsx:174-263 | from the initial state, the current request has a pending loading timer only after it has settled |
| Coordinator.OnlyRealFailuresLogged | src/pages/Home/Home.jsx:251-253 | a failure other than an abort of a started, unsettled request is logged once; an abort, a success or a repeated settlement is not |
| Coordinator.StepKeepsInFlightBehind | src/pages/Home/Home.jsx:190-196 | every request in flight has an id the counter has already handed out |
| Coordinator.SettlesOnce | src/pages/Home/Home.jsx:194-262 | a settled request leaves the set in flight, and a second settlement with the same id changes nothing |
| Coordinator.ClearingLeavesIdle | src/pages/Home/Home.jsx:178-185 | clearing the channel empties the grid and the date map and leaves no request in flight with the current id |
| Coordinator.IdleStepKeepsView | src/pages/Home/Home.jsx:207-261 | while no current request is in flight, any event but a channel selection keeps that so and leaves the grid and the date map unchanged, except that clearing empties them |
| Coordinator.ClearedStaysEmpty | src/pages/Home/Home.jsx:174-263 | after a clearing, the grid and the date map stay empty through any run without a channel selection, whatever settles meanwhile |
| Coordinator.NoSelectionNoGrid | src/pages/Home/Home.jsx:146-172 | from the initial state, the grid and the date map stay empty until a channel is selected |
| Coordinator.SupersededNeverCommits | src/pages/Home/Home.jsx:174-263 | once a newer request has started, every run shows the same as the run with all of the older request's events removed |
| Coordinator.NewerSelectionWins | src/pages/Home/Home.jsx:174-263 | with channel A selected and then B, the grid ends up showing B's videos, whichever fetch settles first |

## Left out

- Rendering: JSX, tooltips, hover week highlighting, `getDurationRangeLabel`, the spinner and the header are presentation and carry no data logic.
- `parseDate` is used only by the rendering.
- Time zones and daylight saving: local midnight is taken to fall on the epoch's day boundaries, so every day has 86 400 000 ms.
- Dates.DayText: the calendar spelling "YYYY-MM-DD" is replaced by a ten-digit code of the day number. A `publishDate` string therefore matches a grid day only when it begins with that code, and the spelling of real dates is not modelled.
- Dates.WindowInRange: a `today` whose grid start could fall before the ECMAScript time-value limit is excluded. That is every `today` less than 370 days above the lower limit, so that even a week-aligned start six days before the range start is a valid date. Dates above the upper limit are excluded too.
- Numbers are integers. Fractional milliseconds or seconds, `Infinity` and `-Infinity` in `publishDateAt` or `duration`, and non-string `publishDate` values are not modelled.
- Videos.Prefix: `slice(0, 10)` counts UTF-16 code units, while a Dafny `char` is a Unicode scalar value. On a publishDate whose first ten characters include a non-BMP character, the two prefixes differ. Keys built from ASCII dates are unaffected.
- Videos.KeyOf: `null` and `undefined` identities are merged into one key. JavaScript keeps them as two distinct Map keys.
- `String(v.videoNo)` is kept as the integer itself. Distinct integers give distinct strings, so `new Set` behaves the same.
- Timing:
  - the `sleep(200)` between pages;
  - the `requestAnimationFrame` yield;
  - the `MIN_LOADING_MS` arithmetic.
  
  The timer is an event without a duration, and its relative order with other events is free.
- The fetch URL, the `cache` option and the proxy are not modelled. The `AbortController` is reduced to the first loop iteration that sees the signal.
- Coordinator.Step: a selection does not abort the previous request. In the page, the effect aborts it (and so does the cleanup), so a superseded request always ends in an AbortError. In the model, a superseded request may still settle with data or with another error. This allows more behaviour than the page has; the safety lemmas hold over it all, but the model does not state that a superseded request ends in an abort.
- Aborts while a `fetch` or `res.json()` is pending are not modelled separately. They surface as that iteration's error.
- The listing is finite. An endless listing of full pages that never reaches the range start is not modelled.
- Fetcher.Collect: completeness over the whole listing (`Fetcher.WalkComplete`) is proved only for a listing served newest first that ends at the page claiming to be last. On any other listing, the early stop on an old page, or on a short page without a next flag, can leave in-range items on later pages unread. The model promises completeness only for the pages the walk reached (`Fetcher.WalkKeepsVisited`).
- React-specific behaviour is not modelled:
  - the effect re-runs only when `channelId` changes;
  - StrictMode double invocation;
  - the cleanup abort on unmount.
  
  A selection event is one run of the effect.
- The channel search, the API wrapper, the header, the app shell and the development proxy are not part of this model.

=== FILE: base.dfy ===
/** Failure-compatible wrappers shared by every module of the model. */
module Base {

  /** A value that may be absent (JavaScript's null/undefined). */
  datatype Option<+T> = None | Some(value: T)

  /** The outcome of an operation that can throw. */
  datatype Result<+R, +E> = Success(value: R) | Failure(error: E)

  /** No element occurs twice. */
  predicate Distinct<T(==)>(s: seq<T>) {
    forall i, j :: 0 <= i < j < |s| ==> s[i] != s[j]
  }
}

=== FILE: coordinator.dfy ===
/** The request bookkeeping of the Home component: a counter tags every
    request, and a settled request touches the visible state only while its
    tag is still the counter's value. */
module Coordinator {
  import opened Base
  import opened Dates
  import opened Videos
  import opened Heatmap
  import opened Fetcher
  import opened Grouping

  /** reqIdRef, the requests started and not yet settled (by id), the
      loading flag, the heatmap values, the per-date video numbers, the
      loading-off timers still pending (by request id), and the errors
      written to the console. */
  datatype State = State(
    counter: nat,
    inFlight: set<nat>,
    loading: bool,
    values: seq<Bucket>,
    idsByDate: map<string, seq<int>>,
    timers: set<nat>,
    log: seq<FetchError>)

  /** The effect runs for a (possibly missing) channelId; request reqId's
      fetch settles against a listing (only a request that was started and
      has not settled yet can settle); request reqId's loading timer fires. */
  datatype Event =
    | Select(channelId: Option<string>)
    | Settle(reqId: nat, remote: Remote)
    | LoadingElapsed(reqId: nat)

  /** `!channelId` is false: the parameter is present and not empty. */
  predicate ChannelGiven(c: Option<string>) {
    c.Some? && c.value != ""
  }

  /** The all-zero grid shown before any result and after clearing. */
  function EmptyValues(today: int): seq<Bucket>
    requires WindowInRange(today)
  {
    FilledSeries([], DisplayWindow(today).heatmapStart, today)
  }

  /** The heatmap values committed for a fetched video list. */
  function ValuesFor(videos: seq<Video>, today: int): seq<Bucket>
    requires WindowInRange(today)
  {
    FilledSeries(videos, DisplayWindow(today).heatmapStart, today)
  }

  function Step(today: int, s: State, e: Event): State
    requires WindowInRange(today)
  {
    match e
    case Select(c) =>
      if !ChannelGiven(c) then
        s.(counter := s.counter + 1, loading := false, values := EmptyValues(today), idsByDate := map[])
      else
        s.(counter := s.counter + 1, inFlight := s.inFlight + {s.counter + 1}, loading := true)
    case Settle(id, remote) =>
      if id !in s.inFlight then s
      else
        var retired := s.(inFlight := s.inFlight - {id});
        var settled :=
          match FetchOutcome(remote, today, PageSize)
          case Success(videos) =>
            if id == s.counter then retired.(idsByDate := VideoNosByDate(videos), values := ValuesFor(videos, today))
            else retired
          case Failure(err) =>
            if err == Aborted then retired else retired.(log := retired.log + [err]);
        if id == s.counter then settled.(timers := settled.timers + {id}) else settled
    case LoadingElapsed(id) =>
      if id !in s.timers then s
      else s.(timers := s.timers - {id}, loading := if id == s.counter then false else s.loading)
  }

  function Run(today: int, s: State, events: seq<Event>): State
    requires WindowInRange(today)
    decreases |events|
  {
    if |events| == 0 then s else Run(today, Step(today, s, events[0]), events[1..])
  }

  /* ---------- single steps ---------- */

  /** The counter never decreases, and every selection or clearing raises it by one. */
  lemma CounterMonotone(today: int, s: State, e: Event)
    requires WindowInRange(today)
    ensures Step(today, s, e).counter >= s.counter
    ensures e.Select? <==> Step(today, s, e).counter == s.counter + 1
    ensures !e.Select? ==> Step(today, s, e).counter == s.counter
  {
  }

  /** What the user sees: the loading flag, the grid and the per-date numbers. */
  predicate SameView(s1: State, s2: State) {
    s1.loading == s2.loading && s1.values == s2.values && s1.idsByDate == s2.idsByDate
  }

  /** A settlement or timer of a request that is not the current one changes
      nothing the user sees, nor the counter. */
  lemma StaleEventInert(today: int, s: State, e: Event)
    requires WindowInRange(today)
    requires (e.Settle? || e.LoadingElapsed?) && e.reqId != s.counter
    ensures SameView(Step(today, s, e), s) && Step(today, s, e).counter == s.counter
  {
  }

  /** The grid and the date map change only by a clearing selection, which
      empties both, or by the settlement of the current request, which shows
      exactly that request's videos in both. */
  lemma CommitOnlyByCurrent(today: int, s: State, e: Event)
    requires WindowInRange(today)
    ensures var t := Step(today, s, e);
            t.values != s.values || t.idsByDate != s.idsByDate ==>
              || (e.Select? && !ChannelGiven(e.channelId) && t.values == EmptyValues(today) && t.idsByDate == map[])
              || (e.Settle? && e.reqId == s.counter
                  && FetchOutcome(e.remote, today, PageSize).Success?
                  && t.values == ValuesFor(FetchOutcome(e.remote, today, PageSize).value, today)
                  && t.idsByDate == VideoNosByDate(FetchOutcome(e.remote, today, PageSize).value))
  {
  }

  /** Loading is switched off only by clearing, or by the pending timer of
      the current request (see CurrentTimerFollowsSettle for when that timer
      can exist). */
  lemma LoadingOffOnlyForCurrent(today: int, s: State, e: Event)
    requires WindowInRange(today)
    requires s.loading && !Step(today, s, e).loading
    ensures (e.Select? && !ChannelGiven(e.channelId))
            || (e.LoadingElapsed? && e.reqId == s.counter && e.reqId in s.timers)
  {
  }

  /* ---------- the loading timers ---------- */

  /** Every pending timer belongs to a request already handed an id. */
  ghost predicate TimersBehind(s: State) {
    forall id :: id in s.timers ==> id <= s.counter
  }

  /** The initial state: counter 0, no request, not loading, the empty grid,
      no timers. */
  function Initial(today: int): (s: State)
    requires WindowInRange(today)
    ensures TimersBehind(s) && s.counter !in s.timers
    ensures Idle(s)
  {
    State(0, {}, false, EmptyValues(today), map[], {}, [])
  }

  lemma StepKeepsTimersBehind(today: int, s: State, e: Event)
    requires WindowInRange(today)
    requires TimersBehind(s)
    ensures TimersBehind(Step(today, s, e))
  {
  }

  /** A selection hands out an id no pending timer carries. */
  lemma SelectStartsWithoutTimer(today: int, s: State, e: Event)
    requires WindowInRange(today)
    requires TimersBehind(s) && e.Select?
    ensures Step(today, s, e).counter !in Step(today, s, e).timers
  {
  }

  /** After a step the current request has a timer only if it was settled by
      that step, or it already had one and the step was not a selection. */
  lemma CurrentTimerOnlyBySettle(today: int, s: State, e: Event)
    requires WindowInRange(today)
    requires TimersBehind(s)
    ensures var t := Step(today, s, e);
            t.counter in t.timers ==>
              (e.Settle? && e.reqId == s.counter && t.counter == s.counter)
              || (!e.Select? && s.counter in s.timers && t.counter == s.counter)
  {
  }

  /** Over a whole run, the current request's timer is pending at the end only
      if it was already pending at the start, or that request settled during
      the run. From the initial state, or just after a selection, this means
      loading can be switched off by a timer only after the current request
      has settled. */
  lemma {:induction false} CurrentTimerFollowsSettle(today: int, s: State, events: seq<Event>)
    requires WindowInRange(today)
    requires TimersBehind(s)
    ensures var t := Run(today, s, events);
            t.counter in t.timers ==>
              (t.counter == s.counter && s.counter in s.timers)
              || exists i :: 0 <= i < |events| && events[i].Settle? && events[i].reqId == t.counter
    decreases |events|
  {
    if |events| > 0 {
      var e := events[0];
      var s1 := Step(today, s, e);
      var t := Run(today, s, events);
      assert t == Run(today, s1, events[1..]);
      StepKeepsTimersBehind(today, s, e);
      CurrentTimerOnlyBySettle(today, s, e);
      CurrentTimerFollowsSettle(today, s1, events[1..]);
      if t.counter in t.timers && !(t.counter == s1.counter && s1.counter in s1.timers) {
        var i :| 0 <= i < |events[1..]| && events[1..][i].Settle? && events[1..][i].reqId == t.counter;
        assert events[i + 1] == events[1..][i];
      }
    }
  }

  /** From the initial state, whenever the current request has a pending
      loading timer, that request has settled earlier in the run. */
  lemma TimerOnlyAfterSettle(today: int, events: seq<Event>)
    requires WindowInRange(today)
    ensures var t := Run(today, Initial(today), events);
            t.counter in t.timers ==>
              exists i :: 0 <= i < |events| && events[i].Settle? && events[i].reqId == t.counter
  {
    CurrentTimerFollowsSettle(today, Initial(today), events);
  }

  /** Aborts are swallowed; every other failure of a started request is
      written to the console once. */
  lemma OnlyRealFailuresLogged(today: int, s: State, id: nat, remote: Remote)
    requires WindowInRange(today)
    ensures var r := FetchOutcome(remote, today, PageSize);
            Step(today, s, Settle(id, remote)).log ==
              if id in s.inFlight && r.Failure? && r.error != Aborted then s.log + [r.error] else s.log
  {
  }

  /* ---------- requests in flight ---------- */

  /** Every started request has an id already handed out. */
  ghost predicate InFlightBehind(s: State) {
    forall id :: id in s.inFlight ==> id <= s.counter
  }

  /** No request in flight is the current one: nothing can commit. */
  ghost predicate Idle(s: State) {
    forall id :: id in s.inFlight ==> id < s.counter
  }

  lemma StepKeepsInFlightBehind(today: int, s: State, e: Event)
    requires WindowInRange(today)
    requires InFlightBehind(s)
    ensures InFlightBehind(Step(today, s, e))
  {
  }

  /** A request settles at most once: a second settlement of the same id
      changes nothing. */
  lemma SettlesOnce(today: int, s: State, id: nat, r1: Remote, r2: Remote)
    requires WindowInRange(today)
    ensures var t := Step(today, s, Settle(id, r1));
            id !in t.inFlight && Step(today, t, Settle(id, r2)) == t
  {
  }

  /** Clearing empties the grid and the date map and leaves no current request. */
  lemma ClearingLeavesIdle(today: int, s: State, c: Option<string>)
    requires WindowInRange(today)
    requires InFlightBehind(s) && !ChannelGiven(c)
    ensures var t := Step(today, s, Select(c));
            Idle(t) && t.values == EmptyValues(today) && t.idsByDate == map[]
  {
  }

  /** While no request is current, any event but a channel selection leaves
      the grid and the date map as they are, and no request current. */
  lemma IdleStepKeepsView(today: int, s: State, e: Event)
    requires WindowInRange(today)
    requires Idle(s) && !(e.Select? && ChannelGiven(e.channelId))
    ensures var t := Step(today, s, e);
            Idle(t) && (e.Select? || (t.values == s.values && t.idsByDate == s.idsByDate))
  {
  }

  /** After a clearing, or from the start, the grid stays empty and the date
      map stays empty until a channel is selected, whatever settles meanwhile. */
  lemma {:induction false} ClearedStaysEmpty(today: int, s: State, events: seq<Event>)
    requires WindowInRange(today)
    requires Idle(s) && s.values == EmptyValues(today) && s.idsByDate == map[]
    requires forall i :: 0 <= i < |events| ==> !(events[i].Select? && ChannelGiven(events[i].channelId))
    ensures Run(today, s, events).values == EmptyValues(today)
    ensures Run(today, s, events).idsByDate == map[]
    decreases |events|
  {
    if |events| > 0 {
      var e := events[0];
      IdleStepKeepsView(today, s, e);
      if e.Select? {
        ClearingLeavesIdle(today, s, e.channelId);
      }
      assert forall i :: 0 <= i < |events[1..]| ==> events[1..][i] == events[i + 1];
      ClearedStaysEmpty(today, Step(today, s, e), events[1..]);
    }
  }

  /** Until a channel is selected, the page shows the empty grid. */
  lemma NoSelectionNoGrid(today: int, events: seq<Event>)
    requires WindowInRange(today)
    requires forall i :: 0 <= i < |events| ==> !(events[i].Select? && ChannelGiven(events[i].channelId))
    ensures Run(today, Initial(today), events).values == EmptyValues(today)
    ensures Run(today, Initial(today), events).idsByDate == map[]
  {
    ClearedStaysEmpty(today, Initial(today), events);
  }

  /* ---------- whole runs ---------- */

  /** Events that belong to request r. */
  predicate OfRequest(e: Event, r: nat) {
    (e.Settle? || e.LoadingElapsed?) && e.reqId == r
  }

  /** The run with every event of request r removed. */
  function Without(events: seq<Event>, r: nat): (kept: seq<Event>)
    ensures forall e :: e in kept <==> e in events && !OfRequest(e, r)
    decreases |events|
  {
    if |events| == 0 then []
    else if OfRequest(events[0], r) then Without(events[1..], r)
    else [events[0]] + Without(events[1..], r)
  }

  /** Two states that differ at most in the log and in request r's
      settlement and timer. */
  predicate AgreeExcept(s1: State, s2: State, r: nat) {
    && SameView(s1, s2)
    && s1.counter == s2.counter
    && s1.inFlight - {r} == s2.inFlight - {r}
    && s1.timers - {r} == s2.timers - {r}
  }

  /** One step keeps two states in agreement, when the event is not r's. */
  lemma StepKeepsAgreement(today: int, s1: State, s2: State, e: Event, r: nat)
    requires WindowInRange(today)
    requires r < s1.counter && AgreeExcept(s1, s2, r) && !OfRequest(e, r)
    ensures AgreeExcept(Step(today, s1, e), Step(today, s2, e), r)
  {
    if e.LoadingElapsed? {
      assert e.reqId in s1.timers <==> e.reqId in s2.timers by {
        assert e.reqId in s1.timers <==> e.reqId in s1.timers - {r};
        assert e.reqId in s2.timers <==> e.reqId in s2.timers - {r};
      }
      assert s1.timers - {e.reqId} - {r} == (s1.timers - {r}) - {e.reqId};
      assert s2.timers - {e.reqId} - {r} == (s2.timers - {r}) - {e.reqId};
    } else if e.Settle? {
      var id := e.reqId;
      assert id in s1.inFlight <==> id in s2.inFlight by {
        assert id in s1.inFlight <==> id in s1.inFlight - {r};
        assert id in s2.inFlight <==> id in s2.inFlight - {r};
      }
      assert s1.inFlight - {id} - {r} == (s1.inFlight - {r}) - {id};
      assert s2.inFlight - {id} - {r} == (s2.inFlight - {r}) - {id};
      assert (s1.timers + {id}) - {r} == (s1.timers - {r}) + {id};
      assert (s2.timers + {id}) - {r} == (s2.timers - {r}) + {id};
    } else if ChannelGiven(e.channelId) {
      var id := s1.counter + 1;
      assert (s1.inFlight + {id}) - {r} == (s1.inFlight - {r}) + {id};
      assert (s2.inFlight + {id}) - {r} == (s2.inFlight - {r}) + {id};
    }
  }

  /** An event of request r, once r is stale, keeps the agreement. */
  lemma StaleStepKeepsAgreement(today: int, s1: State, s2: State, e: Event, r: nat)
    requires WindowInRange(today)
    requires r < s1.counter && AgreeExcept(s1, s2, r) && OfRequest(e, r)
    ensures AgreeExcept(Step(today, s1, e), s2, r)
  {
    StaleEventInert(today, s1, e);
    if e.LoadingElapsed? && e.reqId in s1.timers {
      assert s1.timers - {r} - {r} == s1.timers - {r};
    }
    if e.Settle? && e.reqId in s1.inFlight {
      assert s1.inFlight - {r} - {r} == s1.inFlight - {r};
    }
  }

  lemma {:induction false} SupersededRunInert(today: int, s1: State, s2: State, events: seq<Event>, r: nat)
    requires WindowInRange(today)
    requires r < s1.counter && AgreeExcept(s1, s2, r)
    ensures AgreeExcept(Run(today, s1, events), Run(today, s2, Without(events, r)), r)
    decreases |events|
  {
    if |events| > 0 {
      var e := events[0];
      CounterMonotone(today, s1, e);
      if OfRequest(e, r) {
        StaleStepKeepsAgreement(today, s1, s2, e, r);
        SupersededRunInert(today, Step(today, s1, e), s2, events[1..], r);
      } else {
        assert Without(events, r) == [e] + Without(events[1..], r);
        assert ([e] + Without(events[1..], r))[1..] == Without(events[1..], r);
        StepKeepsAgreement(today, s1, s2, e, r);
        SupersededRunInert(today, Step(today, s1, e), Step(today, s2, e), events[1..], r);
      }
    }
  }

  /** Once a newer request has started, request r can never again change what
      the user sees: the run shows the same as the run with all of r's events
      removed. */
  lemma SupersededNeverCommits(today: int, s: State, events: seq<Event>, r: nat)
    requires WindowInRange(today)
    requires r < s.counter
    ensures SameView(Run(today, s, events), Run(today, s, Without(events, r)))
  {
    SupersededRunInert(today, s, s, events, r);
  }

  lemma RunTwo(today: int, s: State, e1: Event, e2: Event)
    requires WindowInRange(today)
    ensures Run(today, s, [e1, e2]) == Step(today, Step(today, s, e1), e2)
  {
    var s1 := Step(today, s, e1);
    assert [e1, e2][1..] == [e2];
    assert Run(today, s, [e1, e2]) == Run(today, s1, [e2]);
    assert [e2][1..] == [];
    assert Run(today, s1, [e2]) == Run(today, Step(today, s1, e2), []);
  }

  /** Channel A is selected, then channel B before A's fetch settles; whichever
      settles first, the grid ends up showing B's videos. */
  lemma NewerSelectionWins(today: int, s: State, a: string, b: string, ra: Remote, rb: Remote)
    requires WindowInRange(today)
    requires a != "" && b != ""
    requires FetchOutcome(rb, today, PageSize).Success?
    ensures var idA, idB := s.counter + 1, s.counter + 2;
            var started := Run(today, s, [Select(Some(a)), Select(Some(b))]);
            var shown := ValuesFor(FetchOutcome(rb, today, PageSize).value, today);
            && Run(today, started, [Settle(idA, ra), Settle(idB, rb)]).values == shown
            && Run(today, started, [Settle(idB, rb), Settle(idA, ra)]).values == shown
  {
    var idA, idB := s.counter + 1, s.counter + 2;
    RunTwo(today, s, Select(Some(a)), Select(Some(b)));
    var started := Run(today, s, [Select(Some(a)), Select(Some(b))]);
    assert started.counter == idB;
    var first := Step(today, started, Settle(idA, ra));
    StaleEventInert(today, started, Settle(idA, ra));
    assert first.counter == idB;
    RunTwo(today, started, Settle(idA, ra), Settle(idB, rb));
    var second := Step(today, started, Settle(idB, rb));
    assert second.counter == idB;
    StaleEventInert(today, second, Settle(idA, ra));
    RunTwo(today, started, Settle(idB, rb), Settle(idA, ra));
  }
}

=== FILE: dates.dfy ===
/** Local-calendar day arithmetic of the heatmap page (Home.jsx, "Date helpers"
    and "Range"): days are numbered from 1970-01-01, time values are milliseconds. */
module Dates {

  const MsPerDay: int := 24 * 60 * 60 * 1000

  /** ECMAScript time values lie within 8.64e15 ms of the epoch: 10^8 days either way. */
  const MaxDay: int := 100_000_000

  /** The display range ends today and covers 365 days, both ends included. */
  const RangeSpanDays: int := 364

  /** The text formatDate produces for an Invalid Date. */
  const InvalidDateText: string := "NaN-NaN-NaN"

  predicate ValidDay(d: int) {
    -MaxDay <= d <= MaxDay
  }

  predicate ValidTime(ms: int) {
    -MaxDay * MsPerDay <= ms <= MaxDay * MsPerDay
  }

  /** The first millisecond of day d. */
  function DayStartMs(d: int): int {
    d * MsPerDay
  }

  /** The day a time value falls on. */
  function DayOfMs(ms: int): (d: int)
    ensures DayStartMs(d) <= ms < DayStartMs(d) + MsPerDay
  {
    ms / MsPerDay
  }

  /** Date.prototype.getDay: 0 is Sunday; day 0 (1970-01-01) was a Thursday. */
  function Weekday(d: int): (w: int)
    ensures 0 <= w < 7
  {
    (d + 4) % 7
  }

  /** getWeekStartSunday: the Sunday on or before d. */
  function WeekStartSunday(d: int): (s: int)
    ensures Weekday(s) == 0
    ensures s <= d && d - s <= 6
    ensures forall k :: s < k <= d ==> Weekday(k) != 0
  {
    d - Weekday(d)
  }

  /* ---------- the textual date key ---------- */

  function Pow10(n: nat): (p: nat)
    ensures p >= 1
  {
    if n == 0 then 1 else 10 * Pow10(n - 1)
  }

  function DigitChar(n: nat): (c: char)
    requires n < 10
    ensures '0' <= c <= '9'
  {
    ('0' as int + n) as char
  }

  /** The last `width` decimal digits of n, zero-padded on the left. */
  function Decimal(n: nat, width: nat): (s: string)
    ensures |s| == width
    ensures forall i :: 0 <= i < |s| ==> '0' <= s[i] <= '9'
  {
    if width == 0 then "" else Decimal(n / 10, width - 1) + [DigitChar(n % 10)]
  }

  lemma {:induction false} DecimalInjective(a: nat, b: nat, width: nat)
    requires a < Pow10(width) && b < Pow10(width)
    requires Decimal(a, width) == Decimal(b, width)
    ensures a == b
  {
    if width > 0 {
      var sa, sb := Decimal(a, width), Decimal(b, width);
      assert sa[width - 1] == DigitChar(a % 10) && sb[width - 1] == DigitChar(b % 10);
      assert a % 10 == b % 10;
      assert sa[..width - 1] == Decimal(a / 10, width - 1);
      assert sb[..width - 1] == Decimal(b / 10, width - 1);
      DecimalInjective(a / 10, b / 10, width - 1);
    }
  }

  /** The date key of day d. The calendar spelling "YYYY-MM-DD" is replaced by
      a fixed ten-character code of the day number. */
  function DayText(d: int): (s: string)
    requires ValidDay(d)
    ensures |s| == 10
    ensures forall i :: 0 <= i < |s| ==> '0' <= s[i] <= '9'
  {
    Decimal(d + MaxDay, 10)
  }

  lemma DayTextInjective(d1: int, d2: int)
    requires ValidDay(d1) && ValidDay(d2)
    ensures DayText(d1) == DayText(d2) <==> d1 == d2
  {
    if DayText(d1) == DayText(d2) {
      assert Pow10(10) == 10_000_000_000;
      DecimalInjective(d1 + MaxDay, d2 + MaxDay, 10);
    }
  }

  /** formatDate(new Date(ms)): the key of the day ms falls on, or the
      Invalid Date text when ms is outside the ECMAScript time range. */
  function FormatMs(ms: int): string {
    if ValidTime(ms) then DayText(DayOfMs(ms)) else InvalidDateText
  }

  /** Two time values format alike exactly when they fall on the same day or
      are both outside the representable range. */
  lemma FormatMsSameDay(a: int, b: int)
    ensures FormatMs(a) == FormatMs(b) <==>
              (ValidTime(a) && ValidTime(b) && DayOfMs(a) == DayOfMs(b))
              || (!ValidTime(a) && !ValidTime(b))
  {
    if ValidTime(a) && ValidTime(b) {
      DayTextInjective(DayOfMs(a), DayOfMs(b));
    } else if ValidTime(a) {
      assert |FormatMs(a)| != |FormatMs(b)|;
    } else if ValidTime(b) {
      assert |FormatMs(a)| != |FormatMs(b)|;
    }
  }

  /* ---------- the display window ---------- */

  /** The module-level range of Home.jsx for a given "today". */
  datatype Window = Window(endDay: int, rangeStart: int, heatmapStart: int, startMs: int, endMs: int)

  /** The window is representable: every day of the grid is a valid date. */
  predicate WindowInRange(endDay: int) {
    ValidDay(endDay) && ValidDay(endDay - RangeSpanDays - 6)
  }

  /** endDate (today, time zeroed), rangeStartDate (364 days earlier), the
      week-aligned heatmapStartDate, and the fetch bounds startMs/endMs. */
  function DisplayWindow(today: int): (w: Window)
    ensures w.endDay == today
    ensures w.endDay - w.rangeStart == RangeSpanDays
    ensures Weekday(w.heatmapStart) == 0
    ensures w.rangeStart - 6 <= w.heatmapStart <= w.rangeStart
    ensures 365 <= w.endDay - w.heatmapStart + 1 <= 371
    ensures w.startMs == DayStartMs(w.rangeStart)
    ensures w.endMs == DayStartMs(w.endDay + 1) - 1
  {
    var rangeStart := today - RangeSpanDays;
    Window(today, rangeStart, WeekStartSunday(rangeStart),
           DayStartMs(rangeStart), DayStartMs(today) + MsPerDay - 1)
  }

  /** The fetch bounds [startMs, endMs] hold exactly the time values that fall
      on a day of the display range. */
  lemma FetchBoundsMatchRange(today: int, t: int)
    ensures var w := DisplayWindow(today);
            w.startMs <= t <= w.endMs <==> w.rangeStart <= DayOfMs(t) <= w.endDay
  {
    var w := DisplayWindow(today);
    var d := DayOfMs(t);
    assert DayStartMs(w.endDay + 1) == DayStartMs(w.endDay) + MsPerDay;
    if w.rangeStart <= d {
      assert DayStartMs(w.rangeStart) <= DayStartMs(d);
    }
    if d <= w.endDay {
      assert DayStartMs(d) <= DayStartMs(w.endDay);
    }
  }
}

=== FILE: fetcher.dfy ===
/** fetchVideosLastYear: walks the remote listing page by page, keeps the
    records published inside the display range, stops early once the listing
    has gone past the range, and finally keeps one record per identity. */
module Fetcher {
  import opened Base
  import opened Dates
  import opened Videos

  /** The page size the Home component passes to the fetcher. */
  const PageSize: int := 50

  /** The parsed JSON of one listing page: the three places the item array
      may sit, and `content.page.next` read as a boolean. */
  datatype Payload = Payload(
    contentData: Option<seq<Video>>,
    contentItems: Option<seq<Video>>,
    data: Option<seq<Video>>,
    hasNext: bool)

  const EmptyPayload: Payload := Payload(None, None, None, false)

  /** `json?.content?.data ?? json?.content?.items ?? json?.data ?? []`. */
  function ItemsOf(p: Payload): seq<Video> {
    if p.contentData.Some? then p.contentData.value
    else if p.contentItems.Some? then p.contentItems.value
    else if p.data.Some? then p.data.value
    else []
  }

  /** What `fetch` yields for one page: an HTTP status with a body that parses
      (Some) or does not (None), or a rejected request. */
  datatype Response = Response(status: int, body: Option<Payload>) | NetworkFailure

  /** The remote listing of one channel: the answer to each page index, and
      the first loop iteration that observes the abort signal, if any. Pages
      past the end of the listing answer 200 with no items. */
  datatype Remote = Remote(pages: seq<Response>, abortAt: Option<nat>)

  function Request(remote: Remote, page: nat): Response {
    if page < |remote.pages| then remote.pages[page] else Response(200, Some(EmptyPayload))
  }

  /** The ways the fetch throws instead of returning. */
  datatype FetchError = Aborted | HttpStatus(status: int) | BadPayload | Network

  predicate IsOk(status: int) {
    200 <= status <= 299
  }

  /** `Number.isFinite(t) && t >= startMs && t <= endMs` for t = Number(publishDateAt). */
  predicate InWindow(v: Video, w: Window) {
    v.publishDateAt.number.Some? && w.startMs <= v.publishDateAt.number.value <= w.endMs
  }

  /** The items of a page that are accumulated, in page order. */
  function Kept(items: seq<Video>, w: Window): (r: seq<Video>)
    ensures forall v :: v in r <==> v in items && InWindow(v, w)
    decreases |items|
  {
    if |items| == 0 then []
    else
      var prior := Kept(items[..|items| - 1], w);
      var last := items[|items| - 1];
      assert items == items[..|items| - 1] + [last];
      if InWindow(last, w) then prior + [last] else prior
  }

  /* ---------- the early stop on old pages ---------- */

  /** A time bound that may be +Infinity. */
  datatype Bound = Finite(ms: int) | Infinity

  /** `Number(v.publishDateAt) || Infinity`: NaN and 0 count as +Infinity. */
  function Stamp(v: Video): Bound {
    match v.publishDateAt.number
    case Some(ms) => if ms == 0 then Infinity else Finite(ms)
    case None => Infinity
  }

  predicate Before(b: Bound, startMs: int) {
    b.Finite? && b.ms < startMs
  }

  function MinBound(a: Bound, b: Bound): Bound {
    if a.Infinity? then b
    else if b.Infinity? then a
    else if a.ms <= b.ms then a else b
  }

  /** `Math.min(...items.map(Stamp))`. */
  function Oldest(items: seq<Video>): Bound
    decreases |items|
  {
    if |items| == 0 then Infinity else MinBound(Oldest(items[..|items| - 1]), Stamp(items[|items| - 1]))
  }

  /** The oldest stamp precedes the range exactly when some item's stamp does. */
  lemma {:induction false} OldestBeforeIff(items: seq<Video>, startMs: int)
    ensures Before(Oldest(items), startMs) <==> exists i :: 0 <= i < |items| && Before(Stamp(items[i]), startMs)
    decreases |items|
  {
    if |items| > 0 {
      var prior := items[..|items| - 1];
      OldestBeforeIff(prior, startMs);
      assert forall i :: 0 <= i < |prior| ==> prior[i] == items[i];
      if Before(Oldest(items), startMs) {
        if !Before(Oldest(prior), startMs) {
          assert Before(Stamp(items[|items| - 1]), startMs);
        }
      }
    }
  }

  /** The two stop tests after a non-empty page: the listing has gone past the
      start of the range, or the page is short and the server reports no next page. */
  predicate StopsAfter(items: seq<Video>, hasNext: bool, size: int, startMs: int) {
    Before(Oldest(items), startMs) || (!hasNext && |items| < size)
  }

  /* ---------- one loop iteration, and the whole walk ---------- */

  /** The outcome of one iteration: the fetch throws, the loop ends after
      accumulating `kept`, or it accumulates `kept` and asks for the next page. */
  datatype Turn = Throw(error: FetchError) | Last(kept: seq<Video>) | Next(kept: seq<Video>)

  function PageTurn(remote: Remote, w: Window, size: int, page: nat): Turn {
    if remote.abortAt == Some(page) then Throw(Aborted)
    else match Request(remote, page)
      case NetworkFailure => Throw(Network)
      case Response(status, body) =>
        if !IsOk(status) then Throw(HttpStatus(status))
        else match body
          case None => Throw(BadPayload)
          case Some(payload) =>
            var items := ItemsOf(payload);
            if |items| == 0 then Last([])
            else if StopsAfter(items, payload.hasNext, size, w.startMs) then Last(Kept(items, w))
            else Next(Kept(items, w))
  }

  /** The iteration for `page` gets past the abort check and the request
      with an OK status and a payload that parses. */
  predicate Answered(remote: Remote, page: nat) {
    && remote.abortAt != Some(page)
    && Request(remote, page).Response?
    && IsOk(Request(remote, page).status)
    && Request(remote, page).body.Some?
  }

  /** Only pages of the listing can ask for a further page. */
  lemma NextOnlyInsideListing(remote: Remote, w: Window, size: int, page: nat)
    requires PageTurn(remote, w, size, page).Next?
    ensures page < |remote.pages|
  {
  }

  /** Reference definition of the walk from `page` on: the accumulated records,
      or the first error thrown. */
  function Collect(remote: Remote, w: Window, size: int, page: nat): (r: Result<seq<Video>, FetchError>)
    ensures r.Success? ==> forall v :: v in r.value ==> InWindow(v, w)
    decreases |remote.pages| - page
  {
    match PageTurn(remote, w, size, page)
    case Throw(e) => Failure(e)
    case Last(kept) => Success(kept)
    case Next(kept) =>
      NextOnlyInsideListing(remote, w, size, page);
      match Collect(remote, w, size, page + 1)
      case Failure(e) => Failure(e)
      case Success(rest) => Success(kept + rest)
  }

  /** `acc` followed by the outcome of the rest of the walk. */
  function Prepend(acc: seq<Video>, r: Result<seq<Video>, FetchError>): Result<seq<Video>, FetchError> {
    match r
    case Failure(e) => Failure(e)
    case Success(rest) => Success(acc + rest)
  }

  /** An iteration that throws ends the walk with that error, whatever the
      earlier pages accumulated: no partial result is returned. */
  lemma {:induction false} ThrowEndsWalk(remote: Remote, w: Window, size: int, page: nat, k: nat)
    requires page <= k
    requires forall j :: page <= j < k ==> PageTurn(remote, w, size, j).Next?
    requires PageTurn(remote, w, size, k).Throw?
    ensures Collect(remote, w, size, page) == Failure(PageTurn(remote, w, size, k).error)
    decreases k - page
  {
    if page < k {
      ThrowEndsWalk(remote, w, size, page + 1, k);
    }
  }

  /** Pages after the one the walk stops at are never looked at: two listings
      that agree up to that page give the same outcome. */
  lemma {:induction false} PagesAfterStopIgnored(r1: Remote, r2: Remote, w: Window, size: int, page: nat, k: nat)
    requires page <= k
    requires forall j :: page <= j <= k ==> PageTurn(r1, w, size, j) == PageTurn(r2, w, size, j)
    requires !PageTurn(r1, w, size, k).Next?
    ensures Collect(r1, w, size, page) == Collect(r2, w, size, page)
    decreases k - page
  {
    var t := PageTurn(r1, w, size, page);
    assert t == PageTurn(r2, w, size, page);
    if t.Next? {
      NextOnlyInsideListing(r1, w, size, page);
      NextOnlyInsideListing(r2, w, size, page);
      PagesAfterStopIgnored(r1, r2, w, size, page + 1, k);
    }
  }

  /** A successful page whose oldest stamp precedes the range ends the walk,
      whatever its next-page flag says. */
  lemma OldPageStops(remote: Remote, w: Window, size: int, page: nat)
    requires remote.abortAt != Some(page)
    requires Request(remote, page).Response? && IsOk(Request(remote, page).status)
    requires Request(remote, page).body.Some?
    requires exists i :: 0 <= i < |ItemsOf(Request(remote, page).body.value)| &&
                         Before(Stamp(ItemsOf(Request(remote, page).body.value)[i]), w.startMs)
    ensures PageTurn(remote, w, size, page) == Last(Kept(ItemsOf(Request(remote, page).body.value), w))
  {
    OldestBeforeIff(ItemsOf(Request(remote, page).body.value), w.startMs);
  }

  /** Completeness of the walk: an in-range item of a page the walk reached
      (every earlier page asked for a further one, and this one was answered)
      is in the accumulated records of a successful walk. */
  lemma {:induction false} WalkKeepsVisited(remote: Remote, w: Window, size: int, page: nat, j: nat, v: Video)
    requires page <= j
    requires forall k :: page <= k < j ==> PageTurn(remote, w, size, k).Next?
    requires Answered(remote, j)
    requires v in ItemsOf(Request(remote, j).body.value) && InWindow(v, w)
    requires Collect(remote, w, size, page).Success?
    ensures v in Collect(remote, w, size, page).value
    decreases j - page
  {
    var t := PageTurn(remote, w, size, page);
    if page < j {
      assert t.Next?;
      NextOnlyInsideListing(remote, w, size, page);
      WalkKeepsVisited(remote, w, size, page + 1, j, v);
    } else {
      assert v in t.kept;
    }
  }

  /* ---------- completeness on a listing served newest first ---------- */

  /** The items the loop reads from page j, none when it is not answered. */
  function PageItems(remote: Remote, j: nat): seq<Video> {
    if Answered(remote, j) then ItemsOf(Request(remote, j).body.value) else []
  }

  /** The listing is newest first: a numeric publishDateAt on a later page is
      never after the stamp of a record on an earlier page. Records the stop
      test reads as +Infinity (missing, null, zero or NaN publishDateAt) are
      not ordered against later ones. */
  ghost predicate Descending(remote: Remote) {
    forall a: nat, b: nat, x, y ::
      a < b && x in PageItems(remote, a) && y in PageItems(remote, b)
      && Stamp(x).Finite? && y.publishDateAt.number.Some?
      ==> y.publishDateAt.number.value <= x.publishDateAt.number.value
  }

  /** Page a is the end of the listing by its own account: it is empty, or
      short with no next page. */
  predicate ClaimsLast(remote: Remote, a: nat, size: int) {
    Answered(remote, a) &&
    (|PageItems(remote, a)| == 0 || (!Request(remote, a).body.value.hasNext && |PageItems(remote, a)| < size))
  }

  /** No items follow a page that claims to be the last. */
  ghost predicate EndsWhereItSays(remote: Remote, size: int) {
    forall a: nat, b: nat :: a < b && ClaimsLast(remote, a, size) ==> PageItems(remote, b) == []
  }

  /** On a listing served newest first that ends where it says, no page after
      the one the walk stops at holds an in-range item. */
  lemma EarlyStopDropsNothing(remote: Remote, w: Window, size: int, k: nat, j: nat, v: Video)
    requires Descending(remote) && EndsWhereItSays(remote, size)
    requires PageTurn(remote, w, size, k).Last?
    requires k < j && v in PageItems(remote, j)
    ensures !InWindow(v, w)
  {
    var items := PageItems(remote, k);
    assert Answered(remote, k);
    if Before(Oldest(items), w.startMs) {
      OldestBeforeIff(items, w.startMs);
      var i :| 0 <= i < |items| && Before(Stamp(items[i]), w.startMs);
      assert items[i] in PageItems(remote, k);
    } else {
      assert ClaimsLast(remote, k, size);
    }
  }

  /** On such a listing a successful walk keeps every in-range item of every page. */
  lemma {:induction false} WalkComplete(remote: Remote, w: Window, size: int, page: nat, j: nat, v: Video)
    requires Descending(remote) && EndsWhereItSays(remote, size)
    requires page <= j && v in PageItems(remote, j) && InWindow(v, w)
    requires Collect(remote, w, size, page).Success?
    ensures v in Collect(remote, w, size, page).value
    decreases j - page
  {
    var t := PageTurn(remote, w, size, page);
    if page == j {
      assert v in t.kept;
    } else if t.Last? {
      EarlyStopDropsNothing(remote, w, size, page, j, v);
    } else {
      assert t.Next?;
      NextOnlyInsideListing(remote, w, size, page);
      WalkComplete(remote, w, size, page + 1, j, v);
    }
  }

  /* ---------- dedup ---------- */

  /** The last record of `s` with identity k, if any. */
  function LastWithKey(s: seq<Video>, k: VideoKey): (r: Option<Video>)
    ensures r.Some? ==> r.value in s && KeyOf(r.value) == k
    ensures r.None? <==> forall i :: 0 <= i < |s| ==> KeyOf(s[i]) != k
    decreases |s|
  {
    if |s| == 0 then None
    else if KeyOf(s[|s| - 1]) == k then Some(s[|s| - 1])
    else LastWithKey(s[..|s| - 1], k)
  }

  /** A JavaScript Map: keys in first-insertion order, and their values. */
  datatype DedupState = DedupState(order: seq<VideoKey>, latest: map<VideoKey, Video>)

  /** `map.set(KeyOf(v), v)`: a new key goes last, a known key keeps its place. */
  function Insert(st: DedupState, v: Video): DedupState {
    var k := KeyOf(v);
    if k in st.latest then DedupState(st.order, st.latest[k := v])
    else DedupState(st.order + [k], st.latest[k := v])
  }

  /** The Map after inserting every record of `acc`, in order. */
  function DedupFold(acc: seq<Video>): (st: DedupState)
    ensures Distinct(st.order)
    ensures forall k :: k in st.latest <==> k in st.order
    ensures forall k :: k in st.latest ==> KeyOf(st.latest[k]) == k
    decreases |acc|
  {
    if |acc| == 0 then DedupState([], map[])
    else Insert(DedupFold(acc[..|acc| - 1]), acc[|acc| - 1])
  }

  /** The Map holds, for every identity met, the last record met with it. */
  lemma {:induction false} FoldKeepsLast(acc: seq<Video>, k: VideoKey)
    ensures k in DedupFold(acc).latest <==> LastWithKey(acc, k).Some?
    ensures k in DedupFold(acc).latest ==> LastWithKey(acc, k) == Some(DedupFold(acc).latest[k])
    decreases |acc|
  {
    if |acc| > 0 {
      FoldKeepsLast(acc[..|acc| - 1], k);
    }
  }

  /** `[...map.values()]` after the fold: one record per identity, the last seen. */
  function Dedup(acc: seq<Video>): (r: seq<Video>)
    ensures forall i, j :: 0 <= i < j < |r| ==> KeyOf(r[i]) != KeyOf(r[j])
    ensures forall i :: 0 <= i < |r| ==> LastWithKey(acc, KeyOf(r[i])) == Some(r[i])
    ensures forall x :: x in acc ==> exists i :: 0 <= i < |r| && KeyOf(r[i]) == KeyOf(x)
  {
    var st := DedupFold(acc);
    var r := seq(|st.order|, i requires 0 <= i < |st.order| => st.latest[st.order[i]]);
    assert forall i :: 0 <= i < |r| ==> KeyOf(r[i]) == st.order[i];
    forall i | 0 <= i < |r|
      ensures LastWithKey(acc, KeyOf(r[i])) == Some(r[i])
    {
      FoldKeepsLast(acc, st.order[i]);
    }
    forall x | x in acc
      ensures exists i :: 0 <= i < |r| && KeyOf(r[i]) == KeyOf(x)
    {
      var k := KeyOf(x);
      FoldKeepsLast(acc, k);
      assert LastWithKey(acc, k).Some?;
      var i :| 0 <= i < |st.order| && st.order[i] == k;
      assert KeyOf(r[i]) == k;
    }
    r
  }

  /** The identities of `s`, in order. */
  function Keys(s: seq<Video>): (ks: seq<VideoKey>)
    ensures |ks| == |s| && forall i :: 0 <= i < |s| ==> ks[i] == KeyOf(s[i])
  {
    seq(|s|, i requires 0 <= i < |s| => KeyOf(s[i]))
  }

  /** Without repeated identities the Map's keys are the identities in order. */
  lemma {:induction false} FoldOrderOfDistinct(s: seq<Video>)
    requires Distinct(Keys(s))
    ensures DedupFold(s).order == Keys(s)
    decreases |s|
  {
    if |s| > 0 {
      var prior := s[..|s| - 1];
      var k := KeyOf(s[|s| - 1]);
      assert Keys(prior) == Keys(s)[..|s| - 1];
      FoldOrderOfDistinct(prior);
      assert Keys(s) == Keys(prior) + [k];
      assert k !in DedupFold(prior).order;
    }
  }

  /** Without repeated identities each record is the last of its identity. */
  lemma {:induction false} LastOfDistinct(s: seq<Video>, i: nat)
    requires Distinct(Keys(s)) && i < |s|
    ensures LastWithKey(s, KeyOf(s[i])) == Some(s[i])
    decreases |s|
  {
    if i < |s| - 1 {
      var prior := s[..|s| - 1];
      assert Keys(prior) == Keys(s)[..|s| - 1];
      assert Keys(s)[i] != Keys(s)[|s| - 1];
      LastOfDistinct(prior, i);
    }
  }

  /** A list that already has one record per identity is left as it is. */
  lemma DedupOfDistinct(s: seq<Video>)
    requires Distinct(Keys(s))
    ensures Dedup(s) == s
  {
    FoldOrderOfDistinct(s);
    var r := Dedup(s);
    forall i | 0 <= i < |s|
      ensures r[i] == s[i]
    {
      LastOfDistinct(s, i);
    }
  }

  /** Deduplicating twice changes nothing. */
  lemma DedupIdempotent(acc: seq<Video>)
    ensures Dedup(Dedup(acc)) == Dedup(acc)
  {
    DedupOfDistinct(Dedup(acc));
  }

  /** Folding the same records onto equal Maps gives equal Maps. */
  lemma {:induction false} FoldSuffix(p1: seq<Video>, p2: seq<Video>, b: seq<Video>)
    requires DedupFold(p1) == DedupFold(p2)
    ensures DedupFold(p1 + b) == DedupFold(p2 + b)
    decreases |b|
  {
    if |b| == 0 {
      assert p1 + b == p1 && p2 + b == p2;
    } else {
      var b' := b[..|b| - 1];
      assert (p1 + b)[..|p1 + b| - 1] == p1 + b';
      assert (p2 + b)[..|p2 + b| - 1] == p2 + b';
      var x := b[|b| - 1];
      assert (p1 + b)[|p1 + b| - 1] == x && (p2 + b)[|p2 + b| - 1] == x;
      FoldSuffix(p1, p2, b');
      assert DedupFold(p1 + b) == Insert(DedupFold(p1 + b'), x);
      assert DedupFold(p2 + b) == Insert(DedupFold(p2 + b'), x);
    }
  }

  /** Meeting again a record that is already the latest for its identity (the
      same video listed on two pages) leaves the result unchanged. */
  lemma RepeatedRecordAbsorbed(a: seq<Video>, x: Video, b: seq<Video>)
    requires LastWithKey(a, KeyOf(x)) == Some(x)
    ensures Dedup(a + [x] + b) == Dedup(a + b)
  {
    var st := DedupFold(a);
    FoldKeepsLast(a, KeyOf(x));
    assert (a + [x])[..|a|] == a;
    assert DedupFold(a + [x]) == Insert(st, x);
    assert st.latest[KeyOf(x)] == x;
    assert st.latest[KeyOf(x) := x] == st.latest;
    FoldSuffix(a + [x], a, b);
    assert DedupFold(a + [x] + b) == DedupFold(a + b);
  }

  /* ---------- the fetch loop ---------- */

  lemma PrependTwice(a: seq<Video>, b: seq<Video>, r: Result<seq<Video>, FetchError>)
    ensures Prepend(a, Prepend(b, r)) == Prepend(a + b, r)
  {
    if r.Success? {
      assert a + (b + r.value) == (a + b) + r.value;
    }
  }

  /** `for (const v of items) if (in range) acc.push(v)`. */
  method AccumulateInRange(acc: seq<Video>, items: seq<Video>, w: Window) returns (acc': seq<Video>)
    ensures acc' == acc + Kept(items, w)
  {
    acc' := acc;
    for i := 0 to |items|
      invariant acc' == acc + Kept(items[..i], w)
    {
      assert items[..i + 1][..i] == items[..i];
      if InWindow(items[i], w) {
        acc' := acc' + [items[i]];
      }
    }
    assert items[..|items|] == items;
  }

  /** `for (const v of acc) map.set(v.videoId ?? v.videoNo, v); return [...map.values()]`. */
  method DedupRecords(acc: seq<Video>) returns (r: seq<Video>)
    ensures r == Dedup(acc)
  {
    var st := DedupState([], map[]);
    for i := 0 to |acc|
      invariant st == DedupFold(acc[..i])
    {
      assert acc[..i + 1][..i] == acc[..i];
      st := Insert(st, acc[i]);
    }
    assert acc[..|acc|] == acc;
    r := seq(|st.order|, i requires 0 <= i < |st.order| => st.latest[st.order[i]]);
  }

  /** The paging loop of fetchVideosLastYear over the range `w`: requests
      pages 0, 1, 2, ... in order; `turns` counts the iterations. Every
      iteration but the last asked for another page and the last one stopped
      or threw; the outcome is the reference walk. */
  method WalkPages(remote: Remote, w: Window, size: int)
    returns (result: Result<seq<Video>, FetchError>, turns: nat)
    ensures turns >= 1
    ensures forall j :: 0 <= j < turns - 1 ==> PageTurn(remote, w, size, j).Next?
    ensures !PageTurn(remote, w, size, turns - 1).Next?
    ensures result == Collect(remote, w, size, 0)
  {
    var page: nat := 0;
    var acc: seq<Video> := [];
    if Collect(remote, w, size, 0).Success? {
      assert [] + Collect(remote, w, size, 0).value == Collect(remote, w, size, 0).value;
    }
    while true
      invariant Collect(remote, w, size, 0) == Prepend(acc, Collect(remote, w, size, page))
      invariant forall j :: 0 <= j < page ==> PageTurn(remote, w, size, j).Next?
      decreases |remote.pages| - page
    {
      turns := page + 1;
      var turn := FetchPage(remote, w, size, page);
      match turn
      case Throw(e) =>
        return Failure(e), turns;
      case Last(kept) =>
        acc := acc + kept;
        break;
      case Next(kept) =>
        PrependTwice(acc, kept, Collect(remote, w, size, page + 1));
        acc := acc + kept;
        NextOnlyInsideListing(remote, w, size, page);
        page := page + 1;
    }
    result := Success(acc);
  }

  /** One iteration of the paging loop: the abort check, the request, the
      status and payload checks, the accumulation and the stop tests. It
      throws exactly when the page is not answered, an abort taking
      precedence; otherwise it keeps the in-range items, and asks for the
      next page exactly when the page is non-empty, no item is stamped
      before the range, and the page is full or reports a next page. */
  method FetchPage(remote: Remote, w: Window, size: int, page: nat) returns (turn: Turn)
    ensures turn == PageTurn(remote, w, size, page)
    ensures turn.Throw? <==> !Answered(remote, page)
    ensures remote.abortAt == Some(page) ==> turn == Throw(Aborted)
    ensures Answered(remote, page) ==>
              var items := ItemsOf(Request(remote, page).body.value);
              && (forall v :: v in turn.kept <==> v in items && InWindow(v, w))
              && (turn.Next? <==>
                    && |items| > 0
                    && (forall i :: 0 <= i < |items| ==> !Before(Stamp(items[i]), w.startMs))
                    && (Request(remote, page).body.value.hasNext || |items| >= size))
  {
    if remote.abortAt == Some(page) {
      return Throw(Aborted);
    }
    var res := Request(remote, page);
    if res.NetworkFailure? {
      return Throw(Network);
    }
    if !IsOk(res.status) {
      return Throw(HttpStatus(res.status));
    }
    if res.body.None? {
      return Throw(BadPayload);
    }
    var payload := res.body.value;
    var items := ItemsOf(payload);
    if |items| == 0 {
      return Last([]);
    }
    var kept := AccumulateInRange([], items, w);
    assert kept == Kept(items, w);
    OldestBeforeIff(items, w.startMs);
    if Before(Oldest(items), w.startMs) {
      return Last(kept);
    }
    if !payload.hasNext && |items| < size {
      return Last(kept);
    }
    return Next(kept);
  }

  /** The outcome of fetchVideosLastYear for the range ending `today`: the
      records of the walk, one per identity, or the first error thrown. */
  function FetchOutcome(remote: Remote, today: int, size: int): Result<seq<Video>, FetchError> {
    match Collect(remote, DisplayWindow(today), size, 0)
    case Failure(e) => Failure(e)
    case Success(acc) => Success(Dedup(acc))
  }

  /** fetchVideosLastYear: the paging loop followed by the dedup loop. Every
      record returned lies in the range and has an identity of its own. */
  method FetchVideosLastYear(remote: Remote, today: int, size: int)
    returns (result: Result<seq<Video>, FetchError>)
    ensures result == FetchOutcome(remote, today, size)
    ensures result.Success? ==> forall v :: v in result.value ==> InWindow(v, DisplayWindow(today))
    ensures result.Success? ==> forall i, j :: 0 <= i < j < |result.value| ==>
              KeyOf(result.value[i]) != KeyOf(result.value[j])
  {
    var walked, _ := WalkPages(remote, DisplayWindow(today), size);
    match walked
    case Failure(e) =>
      result := Failure(e);
    case Success(acc) =>
      var deduped := DedupRecords(acc);
      forall v | v in deduped
        ensures InWindow(v, DisplayWindow(today))
      {
        var i :| 0 <= i < |deduped| && deduped[i] == v;
        assert LastWithKey(acc, KeyOf(v)) == Some(v);
      }
      result := Success(deduped);
  }

  /** The records of a successful fetch cover every identity of an in-range
      item on a page the walk reached; the record kept for it is the last one
      accumulated with that identity. */
  lemma FetchKeepsVisited(remote: Remote, today: int, size: int, j: nat, v: Video)
    requires forall k :: 0 <= k < j ==> PageTurn(remote, DisplayWindow(today), size, k).Next?
    requires Answered(remote, j)
    requires v in ItemsOf(Request(remote, j).body.value) && InWindow(v, DisplayWindow(today))
    requires FetchOutcome(remote, today, size).Success?
    ensures exists i :: 0 <= i < |FetchOutcome(remote, today, size).value| &&
              KeyOf(FetchOutcome(remote, today, size).value[i]) == KeyOf(v)
  {
    WalkKeepsVisited(remote, DisplayWindow(today), size, 0, j, v);
  }

  /** On a listing served newest first that ends where it says, a successful
      fetch returns a record for the identity of every in-range item of every page. */
  lemma FetchComplete(remote: Remote, today: int, size: int, j: nat, v: Video)
    requires Descending(remote) && EndsWhereItSays(remote, size)
    requires v in PageItems(remote, j) && InWindow(v, DisplayWindow(today))
    requires FetchOutcome(remote, today, size).Success?
    ensures exists i :: 0 <= i < |FetchOutcome(remote, today, size).value| &&
              KeyOf(FetchOutcome(remote, today, size).value[i]) == KeyOf(v)
  {
    WalkComplete(remote, DisplayWindow(today), size, 0, j, v);
  }
}

=== FILE: grouping.dfy ===
/** The per-date list of video numbers the page keeps for hovering: every
    video with a date key and a videoNo is filed under its key, and each list
    is then reduced to its distinct numbers in first-seen order. */
module Grouping {
  import opened Base
  import opened Videos

  /** Reference definition: the videoNo of every video filed under `key`, in
      list order, repeats included. */
  function NosOn(videos: seq<Video>, key: string): seq<int>
    decreases |videos|
  {
    if |videos| == 0 then []
    else
      var prior := videos[..|videos| - 1];
      var v := videos[|videos| - 1];
      if DateKey(v) == Some(key) && v.videoNo.Some? then NosOn(prior, key) + [v.videoNo.value]
      else NosOn(prior, key)
  }

  /** A number is listed under a key exactly when some video filed under that
      key carries it. */
  lemma {:induction false} NosOnMembers(videos: seq<Video>, key: string, no: int)
    ensures no in NosOn(videos, key) <==>
              exists i :: 0 <= i < |videos| && DateKey(videos[i]) == Some(key) && videos[i].videoNo == Some(no)
    decreases |videos|
  {
    if |videos| > 0 {
      var prior := videos[..|videos| - 1];
      NosOnMembers(prior, key, no);
      assert forall i :: 0 <= i < |prior| ==> prior[i] == videos[i];
    }
  }

  /** The filing pass: `dateMap.get(dateKey).push(String(v.videoNo))`, a list
      being created the first time its key is met. */
  function GroupNos(videos: seq<Video>): (m: map<string, seq<int>>)
    ensures forall k :: k in m ==> m[k] == NosOn(videos, k) && m[k] != []
    ensures forall k :: k !in m ==> NosOn(videos, k) == []
    decreases |videos|
  {
    if |videos| == 0 then map[]
    else
      var prior := videos[..|videos| - 1];
      File(GroupNos(prior), videos[|videos| - 1])
  }

  /** Files one video: its number goes at the end of its key's list. */
  function File(m: map<string, seq<int>>, v: Video): map<string, seq<int>> {
    match DateKey(v)
    case None => m
    case Some(k) =>
      match v.videoNo
      case None => m
      case Some(no) => m[k := (if k in m then m[k] else []) + [no]]
  }

  /** `Array.from(new Set(arr))`: the distinct elements in first-seen order. */
  function Unique(s: seq<int>): (r: seq<int>)
    ensures Distinct(r)
    ensures forall x :: x in r <==> x in s
    ensures |r| <= |s|
    decreases |s|
  {
    if |s| == 0 then []
    else
      var u := Unique(s[..|s| - 1]);
      var x := s[|s| - 1];
      assert s == s[..|s| - 1] + [x];
      if x in u then u else u + [x]
  }

  /** A list without repeats is kept as it is, so Unique is idempotent. */
  lemma {:induction false} UniqueOfDistinct(s: seq<int>)
    requires Distinct(s)
    ensures Unique(s) == s
    decreases |s|
  {
    if |s| > 0 {
      var prior := s[..|s| - 1];
      UniqueOfDistinct(prior);
      assert s[|s| - 1] !in prior;
      assert s == prior + [s[|s| - 1]];
    }
  }

  /** The position of the first occurrence of x in s. */
  function FirstIndex(s: seq<int>, x: int): (idx: nat)
    requires x in s
    ensures idx < |s| && s[idx] == x
    ensures forall k :: 0 <= k < idx ==> s[k] != x
    decreases |s|
  {
    if s[0] == x then 0 else 1 + FirstIndex(s[1..], x)
  }

  /** Appending an element leaves the first occurrence of an earlier one in place. */
  lemma FirstIndexExtend(s: seq<int>, z: int, y: int)
    requires y in s
    ensures FirstIndex(s + [z], y) == FirstIndex(s, y)
  {
    var a, b := FirstIndex(s + [z], y), FirstIndex(s, y);
    assert (s + [z])[b] == y;
    assert forall k :: 0 <= k < |s| ==> (s + [z])[k] == s[k];
  }

  /** Unique lists the distinct elements in the order of their first
      occurrence: of two listed elements, the earlier one occurs first. */
  lemma {:induction false} UniqueFirstSeenOrder(s: seq<int>, i: nat, j: nat)
    requires i < j < |Unique(s)|
    ensures FirstIndex(s, Unique(s)[i]) < FirstIndex(s, Unique(s)[j])
    decreases |s|
  {
    var prior, x := s[..|s| - 1], s[|s| - 1];
    assert s == prior + [x];
    var u := Unique(prior);
    FirstIndexExtend(prior, x, u[i]);
    if j < |u| {
      assert Unique(s)[i] == u[i] && Unique(s)[j] == u[j];
      UniqueFirstSeenOrder(prior, i, j);
      FirstIndexExtend(prior, x, u[j]);
    } else {
      assert Unique(s) == u + [x] && x !in prior;
      assert FirstIndex(s, x) == |s| - 1;
    }
  }

  /** The `dateMap` the page stores: for each date key some numbered video
      carries, that key's distinct video numbers. */
  function VideoNosByDate(videos: seq<Video>): (m: map<string, seq<int>>)
    ensures forall k :: k in m <==> NosOn(videos, k) != []
    ensures forall k :: k in m ==> Distinct(m[k]) && |m[k]| <= |NosOn(videos, k)|
  {
    UniqueLists(GroupNos(videos))
  }

  /** The final pass: every list reduced to its distinct elements. */
  function UniqueLists(g: map<string, seq<int>>): map<string, seq<int>> {
    map k | k in g :: Unique(g[k])
  }

  /** The keys of `dateMap` are the date keys of the numbered videos, and each
      list holds exactly the numbers of the videos filed under its key. */
  lemma VideoNosByDateContents(videos: seq<Video>, k: string, no: int)
    ensures k in VideoNosByDate(videos) <==>
              exists i :: 0 <= i < |videos| && DateKey(videos[i]) == Some(k) && videos[i].videoNo.Some?
    ensures k in VideoNosByDate(videos) ==> (no in VideoNosByDate(videos)[k] <==>
              exists i :: 0 <= i < |videos| && DateKey(videos[i]) == Some(k) && videos[i].videoNo == Some(no))
  {
    NosOnMembers(videos, k, no);
    if exists i :: 0 <= i < |videos| && DateKey(videos[i]) == Some(k) && videos[i].videoNo.Some? {
      var i :| 0 <= i < |videos| && DateKey(videos[i]) == Some(k) && videos[i].videoNo.Some?;
      NosOnMembers(videos, k, videos[i].videoNo.value);
    } else if NosOn(videos, k) != [] {
      NosOnMembers(videos, k, NosOn(videos, k)[0]);
    }
  }

  /** Listing video i once more only appends a number its list already holds. */
  lemma GroupAfterRepeat(videos: seq<Video>, i: nat)
    requires i < |videos|
    ensures var v := videos[i];
            DateKey(v).Some? && v.videoNo.Some? ==>
              && DateKey(v).value in GroupNos(videos)
              && v.videoNo.value in GroupNos(videos)[DateKey(v).value]
  {
    var v := videos[i];
    if DateKey(v).Some? && v.videoNo.Some? {
      NosOnMembers(videos, DateKey(v).value, v.videoNo.value);
    }
  }

  /** Appending an element already present leaves Unique unchanged. */
  lemma UniqueAbsorbsRepeat(s: seq<int>, x: int)
    requires x in s
    ensures Unique(s + [x]) == Unique(s)
  {
    assert (s + [x])[..|s|] == s;
  }

  /** Filing maps whose lists have the same distinct elements give the same `dateMap`. */
  lemma SameUniqueLists(g1: map<string, seq<int>>, g2: map<string, seq<int>>)
    requires g1.Keys == g2.Keys
    requires forall k :: k in g1 ==> Unique(g1[k]) == Unique(g2[k])
    ensures UniqueLists(g1) == UniqueLists(g2)
  {
  }

  /** Listing a video twice changes no list. */
  lemma RepeatIgnored(videos: seq<Video>, i: nat)
    requires i < |videos|
    ensures VideoNosByDate(videos + [videos[i]]) == VideoNosByDate(videos)
  {
    var v := videos[i];
    var w := videos + [v];
    assert w[..|w| - 1] == videos;
    var g := GroupNos(videos);
    assert GroupNos(w) == File(g, v);
    GroupAfterRepeat(videos, i);
    if DateKey(v).Some? && v.videoNo.Some? {
      var k, no := DateKey(v).value, v.videoNo.value;
      UniqueAbsorbsRepeat(g[k], no);
      assert File(g, v) == g[k := g[k] + [no]];
      SameUniqueLists(File(g, v), g);
    }
    assert UniqueLists(GroupNos(w)) == UniqueLists(g);
  }
}

=== FILE: heatmap.dfy ===
/** buildHeatmapValuesDurationLevelFilled: per-day duration totals over the
    week-aligned grid, each mapped to a level 0..4. */
module Heatmap {
  import opened Base
  import opened Dates
  import opened Videos

  const MaxSec: int := 24 * 60 * 60
  const StepSec: int := 6 * 60 * 60

  /** One cell of the calendar grid: its date key, level and summed seconds. */
  datatype Bucket = Bucket(date: string, count: int, totalSec: int)

  /** `min(max(totalSec, 0), MAX_SEC)`, then 0 for zero and otherwise
      `min(4, ceil(clamped / STEP))`. */
  function Level(totalSec: int): (level: int)
    ensures 0 <= level <= 4
    ensures level == 0 <==> totalSec <= 0
    ensures level == 1 <==> 0 < totalSec <= StepSec
    ensures level == 2 <==> StepSec < totalSec <= 2 * StepSec
    ensures level == 3 <==> 2 * StepSec < totalSec <= 3 * StepSec
    ensures level == 4 <==> 3 * StepSec < totalSec
  {
    var clamped := if totalSec < 0 then 0 else if totalSec > MaxSec then MaxSec else totalSec;
    if clamped == 0 then 0
    else
      var steps := (clamped + StepSec - 1) / StepSec;
      if steps > 4 then 4 else steps
  }

  /** More seconds never give a lower level. */
  lemma LevelMonotone(a: int, b: int)
    requires a <= b
    ensures Level(a) <= Level(b)
  {
  }

  /** Reference definition: the seconds of all videos whose date key is `key`. */
  function SumOn(videos: seq<Video>, key: string): int
    decreases |videos|
  {
    if |videos| == 0 then 0
    else
      var last := videos[|videos| - 1];
      SumOn(videos[..|videos| - 1], key) + (if DateKey(last) == Some(key) then Seconds(last) else 0)
  }

  /** Some video of the list carries date key `key`. */
  predicate Filed(videos: seq<Video>, key: string)
    decreases |videos|
  {
    |videos| > 0 && (DateKey(videos[|videos| - 1]) == Some(key) || Filed(videos[..|videos| - 1], key))
  }

  lemma {:induction false} FiledIff(videos: seq<Video>, key: string)
    ensures Filed(videos, key) <==> exists i :: 0 <= i < |videos| && DateKey(videos[i]) == Some(key)
    decreases |videos|
  {
    if |videos| > 0 {
      var prior := videos[..|videos| - 1];
      FiledIff(prior, key);
      assert forall i :: 0 <= i < |prior| ==> prior[i] == videos[i];
    }
  }

  /** The `secondsByDate` map: one entry per date key some video carries,
      holding the sum of those videos' seconds; a key no video carries sums to 0. */
  function SecondsByDate(videos: seq<Video>): (m: map<string, int>)
    ensures forall k :: k in m <==> Filed(videos, k)
    ensures forall k :: k in m ==> m[k] == SumOn(videos, k)
    ensures forall k :: k !in m ==> SumOn(videos, k) == 0
    decreases |videos|
  {
    if |videos| == 0 then map[]
    else
      var prior := videos[..|videos| - 1];
      var m := SecondsByDate(prior);
      var v := videos[|videos| - 1];
      match DateKey(v)
      case None => m
      case Some(k) => m[k := (if k in m then m[k] else 0) + Seconds(v)]
  }

  /** The map's keys are exactly the date keys the videos carry. */
  lemma SecondsByDateKeys(videos: seq<Video>, k: string)
    ensures k in SecondsByDate(videos) <==> exists i :: 0 <= i < |videos| && DateKey(videos[i]) == Some(k)
  {
    FiledIff(videos, k);
  }

  /** The bucket of one day. */
  function DayBucket(videos: seq<Video>, day: int): Bucket
    requires ValidDay(day)
  {
    var total := SumOn(videos, DayText(day));
    Bucket(DayText(day), Level(total), total)
  }

  /** Reference definition of the filled series: one bucket per day from
      `start` to `end` inclusive, nothing when `end` precedes `start`. */
  function FilledSeries(videos: seq<Video>, start: int, end: int): seq<Bucket>
    requires ValidDay(start) && end <= MaxDay
    decreases end - start
  {
    if end < start then [] else FilledSeries(videos, start, end - 1) + [DayBucket(videos, end)]
  }

  /** The reference series has one bucket per day, the i-th for day start + i. */
  lemma {:induction false} FilledSeriesShape(videos: seq<Video>, start: int, end: int)
    requires ValidDay(start) && end <= MaxDay
    ensures |FilledSeries(videos, start, end)| == if start <= end then end - start + 1 else 0
    ensures forall i :: 0 <= i < |FilledSeries(videos, start, end)| ==>
              FilledSeries(videos, start, end)[i] == DayBucket(videos, start + i)
    decreases end - start
  {
    if start <= end {
      FilledSeriesShape(videos, start, end - 1);
      var prev, b := FilledSeries(videos, start, end - 1), DayBucket(videos, end);
      assert FilledSeries(videos, start, end) == prev + [b];
      forall i | 0 <= i < |prev| + 1
        ensures (prev + [b])[i] == DayBucket(videos, start + i)
      {
        if i < |prev| {
          assert (prev + [b])[i] == prev[i];
        }
      }
    }
  }

  /** One step of the walk: the day's key, its total looked up in
      `secondsByDate` (0 when absent) and the level of that total. */
  function LookupBucket(videos: seq<Video>, secondsByDate: map<string, int>, d: int): (b: Bucket)
    requires secondsByDate == SecondsByDate(videos)
    requires ValidDay(d)
    ensures b == DayBucket(videos, d)
  {
    var dateStr := DayText(d);
    var totalSec := if dateStr in secondsByDate then secondsByDate[dateStr] else 0;
    Bucket(dateStr, Level(totalSec), totalSec)
  }

  /** buildHeatmapValuesDurationLevelFilled: sums durations into a map keyed
      by date, then walks the days from `start` to `end` one at a time. */
  method BuildHeatmapValues(videos: seq<Video>, start: int, end: int) returns (values: seq<Bucket>)
    requires ValidDay(start) && ValidDay(end)
    ensures |values| == if start <= end then end - start + 1 else 0
    ensures forall i :: 0 <= i < |values| ==> values[i].date == DayText(start + i)
    ensures forall i :: 0 <= i < |values| ==>
              values[i].totalSec == SumOn(videos, values[i].date) && values[i].count == Level(values[i].totalSec)
    ensures values == FilledSeries(videos, start, end)
  {
    var secondsByDate := SecondsByDate(videos);
    values := [];
    var d := start;
    while d <= end
      invariant d == start || start <= d <= end + 1
      invariant |values| == d - start
      invariant values == FilledSeries(videos, start, d - 1)
    {
      values := values + [LookupBucket(videos, secondsByDate, d)];
      d := d + 1;
    }
    FilledSeriesShape(videos, start, end);
  }

  /* ---------- properties of the filled series ---------- */

  /** Consecutive buckets are consecutive days: no date repeats. */
  lemma SeriesDatesDistinct(videos: seq<Video>, start: int, end: int)
    requires ValidDay(start) && ValidDay(end)
    ensures var r := FilledSeries(videos, start, end);
            forall i, j :: 0 <= i < j < |r| ==> r[i].date != r[j].date
  {
    var r := FilledSeries(videos, start, end);
    FilledSeriesShape(videos, start, end);
    forall i, j | 0 <= i < j < |r|
      ensures r[i].date != r[j].date
    {
      assert r[i].date == DayText(start + i) && r[j].date == DayText(start + j);
      DayTextInjective(start + i, start + j);
    }
  }

  /** The video list decides only totals and levels: the grid of dates and its
      length are the same for every list, and the empty list gives all zeros. */
  lemma EmptySeriesAllZero(videos: seq<Video>, start: int, end: int)
    requires ValidDay(start) && ValidDay(end)
    ensures var empty, r := FilledSeries([], start, end), FilledSeries(videos, start, end);
            && |empty| == |r|
            && (forall i :: 0 <= i < |r| ==> empty[i].date == r[i].date)
            && (forall i :: 0 <= i < |empty| ==> empty[i].totalSec == 0 && empty[i].count == 0)
  {
    FilledSeriesShape([], start, end);
    FilledSeriesShape(videos, start, end);
  }

  /** A lone video of 7200 seconds dated day d lights that day at level 1 and
      leaves every other day at 0. */
  lemma SingleVideoExample(v: Video, d: int, start: int, end: int)
    requires ValidDay(start) && ValidDay(end) && start <= d <= end
    requires v.publishDate == Some(DayText(d))
    requires v.duration.number == Some(7200)
    ensures var r := FilledSeries([v], start, end);
            && |r| == end - start + 1
            && r[d - start] == Bucket(DayText(d), 1, 7200)
            && forall i :: 0 <= i < |r| && i != d - start ==> r[i].totalSec == 0 && r[i].count == 0
  {
    var r := FilledSeries([v], start, end);
    FilledSeriesShape([v], start, end);
    assert DayText(d) + "" == DayText(d);
    PublishDateKeysItsDay(v, d, "");
    assert SumOn([v], DayText(d)) == 7200;
    forall i | 0 <= i < |r| && i != d - start
      ensures r[i].totalSec == 0 && r[i].count == 0
    {
      DayTextInjective(start + i, d);
      assert SumOn([v], DayText(start + i)) == 0;
    }
  }
}

=== FILE: videos.dfy ===
/** A video record of the channel listing, and the per-record readings the
    page makes of it: its date key, its duration and its identity. */
module Videos {
  import opened Base
  import opened Dates

  /** A raw JSON field as the page reads it: its JavaScript truthiness and
      what Number() makes of it (None stands for NaN). The two parts are
      independent here; in JavaScript a falsy value always has Number() 0 or
      NaN, so a field with truthy false and a nonzero number cannot occur. */
  datatype NumericField = NumericField(truthy: bool, number: Option<int>)

  /** A record of the listing. publishDate is None when absent or null. */
  datatype Video = Video(
    videoId: Option<string>,
    videoNo: Option<int>,
    publishDate: Option<string>,
    publishDateAt: NumericField,
    duration: NumericField)

  /** String.prototype.slice(0, n). */
  function Prefix(s: string, n: nat): (p: string)
    ensures |p| == if |s| < n then |s| else n
    ensures p <= s
  {
    if |s| <= n then s else s[..n]
  }

  /** `v.publishDate` is truthy: present and not the empty string. */
  predicate HasPublishDate(v: Video) {
    v.publishDate.Some? && v.publishDate.value != ""
  }

  /** getDateKey: the first ten characters of publishDate when it is truthy,
      else the formatted publishDateAt when that is truthy, else no key. */
  function DateKey(v: Video): (k: Option<string>)
    ensures k.Some? ==> k.value != ""
    ensures k.None? <==> !HasPublishDate(v) && !v.publishDateAt.truthy
  {
    if HasPublishDate(v) then Some(Prefix(v.publishDate.value, 10))
    else if v.publishDateAt.truthy then Some(FormatNumber(v.publishDateAt))
    else None
  }

  /** formatDate(Number(f)): NaN makes an Invalid Date. */
  function FormatNumber(f: NumericField): string {
    match f.number
    case Some(ms) => FormatMs(ms)
    case None => InvalidDateText
  }

  /** A publishDate that starts with a day's key files the video under that day. */
  lemma PublishDateKeysItsDay(v: Video, d: int, rest: string)
    requires ValidDay(d)
    requires v.publishDate == Some(DayText(d) + rest)
    ensures DateKey(v) == Some(DayText(d))
  {
    assert Prefix(DayText(d) + rest, 10) == DayText(d);
  }

  /** Without a usable publishDate, a numeric publishDateAt files the video
      under the day it falls on; one outside the ECMAScript time range, or
      NaN, files it under the Invalid Date text. */
  lemma TimestampKeysItsDay(v: Video)
    requires !HasPublishDate(v) && v.publishDateAt.truthy
    ensures v.publishDateAt.number.Some? && ValidTime(v.publishDateAt.number.value) ==>
              DateKey(v) == Some(DayText(DayOfMs(v.publishDateAt.number.value)))
    ensures v.publishDateAt.number.Some? && !ValidTime(v.publishDateAt.number.value) ==>
              DateKey(v) == Some(InvalidDateText)
    ensures v.publishDateAt.number.None? ==> DateKey(v) == Some(InvalidDateText)
  {
  }

  /** `Number(v.duration) || 0`: a missing or NaN duration adds nothing. */
  function Seconds(v: Video): int {
    match v.duration.number
    case Some(n) => n
    case None => 0
  }

  /** The Map key of the dedup step, `v.videoId ?? v.videoNo`; the string id
      and the numeric fallback never collide. */
  datatype VideoKey = ById(id: string) | ByNo(no: int) | Undefined

  function KeyOf(v: Video): VideoKey {
    match v.videoId
    case Some(id) => ById(id)
    case None =>
      match v.videoNo
      case Some(no) => ByNo(no)
      case None => Undefined
  }
}
